=== FILE: README.md ===
# Hotel booking and payment core — a Dafny model

This project models the booking and payment path of a hotel-booking backend
(a Kotlin/Spring service). It covers:

- the reservation lifecycle: create, read, update, set-status and delete;
- the payment bridge, which asks the payment processor for a payment intent
  for a PENDING booking;
- the processor's webhook, which confirms the booking a succeeded payment
  points at;
- the mapping of service outcomes and exceptions to HTTP status codes;
- the hotel search query and the search cards and hotel details built on it.

The model is functional. The database is an immutable `Store`. It holds the
read-only catalog of hotels and room types, a `map<int, Booking>` bookings
table, and the next value of the bookings identity column. Every operation is a
pure function from a store to a result. Other conventions:

- Dates are epoch-day integers. `ChronoUnit.DAYS.between` is their difference.
- Prices are whole cents, because the price columns are NUMERIC(10, 2).
- A thrown exception is an `Err` carrying the exception class and message.
- A Kotlin `null` is `None`.

## Modules

| file | module | what it holds |
|---|---|---|
| outcomes.dfy | `Outcomes` | `Option`, `Result`, and the exception classes the core throws |
| longs.dfy | `Longs` | 64-bit bounds, `Long.toString`, `String.toLong`, and their round trip |
| decimals.dfy | `Decimals` | `BigDecimal` as unscaled value plus scale, `multiply`, `toLong` (truncation and 64-bit wrap), the NUMERIC(10, 2) bound |
| entities.dfy | `Entities` | `Status`, `Hotel`, `RoomType`, `Booking`, `Catalog`, `Store`, lookups, and the store invariant `Inv` |
| booking_service.dfy | `BookingService` | pricing, create, update, set-status (`cancelBooking`), delete, detail views |
| http.dfy | `Http` | responses, and the status of an exception that escapes a controller |
| booking_controller.dfy | `BookingController` | the five booking endpoints |
| payment_service.dfy | `PaymentService` | payment-intent creation |
| stripe_webhook.dfy | `StripeWebhook` | webhook handling, its idempotence, and the webhook endpoint |
| reconciliation.dfy | `Reconciliation` | intent metadata to webhook correlation, plus an end-to-end scenario |
| hotel_repository.dfy | `HotelRepository` | `findByCity` and the city/capacity search query |
| hotel_service.dfy | `HotelService` | search cards (cheapest rate, first image) and hotel details |

## Canonical shapes chosen

The source holds several revisions that do not fit together. The model picks
one shape for each:

- **Booking.** The model uses the entity's shape: a room-type reference, a user
  reference, a decimal price and a status. `BookingService` itself still builds
  an older shape, with denormalised hotel fields and a `Double` price. In the
  model, the hotel name, city and image of the detail view are reached through
  the booking's room type.
- **Owner.** `createBooking` never sets the entity's mandatory `user`. Creation
  therefore takes the owner as a parameter (`userId`). The owner is never
  checked against a caller anywhere, and no operation changes it.
- **Webhook.** The webhook writes `BookingStatus.PAID`, which is not a member of
  the enum; the model writes `Confirmed`. It calls `updateBookingStatus`, which
  the service does not define; the model uses `cancelBooking`, the service's
  set-status operation.
- **Detail view.** Two revisions define `BookingDetailDto`. The model's
  `BookingDetail` follows `dto/ApiDtos.kt:51-63`: `passengerCount`,
  `guestNames`, the price as a decimal (cents here), the status, and
  the `roomId`. That revision carries the status as text; the model keeps the
  `Status` enum the text is rendered from. `toDetailDto` in
  `BookingService.kt:133-143` as written builds the other revision,
  `dto/DatailDtos.kt:31-41`. That one has `totalGuests` and a `Double` price,
  and carries neither the guest names nor the room id. The model fills the two extra fields from the booking itself
  (`guestNames`, and `roomId` from the room type).
- **Prices.** The service multiplies prices as doubles. The model multiplies
  exact cents by the night count.

## Where the code and the design intent differ (the model follows the code)

- **No status guards.** Update, set-status and the webhook work from any status.
  `Reconciliation.CancelledIsNotTerminal` shows that CANCELLED can be left, both
  through the status endpoint and through the webhook. The service's own comment
  on `cancelBooking` (`BookingService.kt:110`) says it moves a booking to
  CANCELLED, yet it writes whatever status it is given. A guarded variant would
  make CANCELLED terminal.
- **Duplicate webhook deliveries.** They are harmless because the write is a
  constant assignment, not because of a check on the current state
  (`StripeWebhook.WebhookIdempotent`). This holds for any second delivery that
  verifies to the same event, including one signed again under a new header.
- **No capacity check.** Neither create nor update compares the guest count
  with the room's capacity. `BookingService.Bookable` does not mention the
  guest count, and creation succeeds exactly when it holds.
- **No inventory use.** `totalInventory` is never read or decremented. Creation
  leaves the catalog unchanged.
- **Bad webhook signature.** The signature exception is not handled, so the
  endpoint answers 500, not a 4xx.
- **Non-numeric metadata id.** It raises NumberFormatException. That is an
  IllegalArgumentException, so the global handler answers 400.

## Persistence checks modelled

Saving a booking checks the entity's constraints first. Blank guest names fail
bean validation (`@NotBlank`: nothing left after `trim`). A price outside
NUMERIC(10, 2) is refused by the database. No controller catches either error,
so both answer 500.

The store invariant `Entities.Inv` holds of any store the operations build from
an empty one. It says:

- the catalog has unique keys and every room has a hotel;
- every booking sits under its own id, below the next identity value;
- every booking is persistable;
- every booking is priced as its room's rate times at least one night.

The seed data the application loads at start-up does not satisfy the pricing
part of the invariant.

## Model

| member | source | states |
|---|---|---|
| Longs.LongToString | src/main/kotlin/com/expediaclon/backend/service/PaymentService.kt:32 | the metadata text of an id starts with '-' exactly when the id is negative. A non-negative id is written as decimal digits only, with no sign and no leading zero unless it is 0. A negative id's digits also have no leading zero |
| Longs.ParseLong | src/main/kotlin/com/expediaclon/backend/controller/StripeWebhookController.kt:37 | `toLong` gives a value in the 64-bit range. Empty text fails, a lone sign fails, and so does any character other than a digit or a leading sign. A run of digits parses exactly when its decimal value (leading zeros allowed) is at most `Long.MAX_VALUE`, and gives that value |
| Longs.SignedDigits | src/main/kotlin/com/expediaclon/backend/controller/StripeWebhookController.kt:37 | a leading `+` parses like the bare digits; a leading `-` parses exactly when the magnitude is at most 2^63 and gives its negation |
| Longs.ParseLongEdges | src/main/kotlin/com/expediaclon/backend/controller/StripeWebhookController.kt:37 | "007" parses as 7, "+5" as 5, "-5" as -5; "-" and "+" alone fail |
| Longs.OutOfRangeTextFails | src/main/kotlin/com/expediaclon/backend/controller/StripeWebhookController.kt:37 | the decimal text of any number outside the `Long` range fails to parse, although it is all digits |
| Longs.DigitsRoundTrip | src/main/kotlin/com/expediaclon/backend/service/PaymentService.kt:32 | the digits written for a natural number read back as that number |
| Longs.LongRoundTrip | src/main/kotlin/com/expediaclon/backend/controller/StripeWebhookController.kt:34-37 | parsing the text `toString` wrote for any `Long` gives back that `Long` |
| Longs.LongToStringInjective | src/main/kotlin/com/expediaclon/backend/service/PaymentService.kt:32 | two different booking ids never get the same metadata text |
| Decimals.ToLong | src/main/kotlin/com/expediaclon/backend/service/PaymentService.kt:26 | `BigDecimal.toLong` always gives a `Long`; it is the truncated value whenever that fits in 64 bits |
| Decimals.MinorUnitsExact | src/main/kotlin/com/expediaclon/backend/service/PaymentService.kt:26 | for any price that fits NUMERIC(10, 2), `price × 100` converted to a long is exactly the price in cents, with no rounding or wrap-around |
| Entities.FindById | src/main/kotlin/com/expediaclon/backend/service/BookingService.kt:29-30 | a lookup by primary key returns a stored row with the requested id, and fails exactly when no stored row has it |
| Entities.RoomsOfHotel | src/main/kotlin/com/expediaclon/backend/service/HotelService.kt:61 | the room list of a hotel holds exactly the stored rooms whose hotel is that hotel. When room ids are distinct, as primary keys are, no room appears twice |
| Entities.MainImage | src/main/kotlin/com/expediaclon/backend/service/HotelService.kt:38 | the main image is the first image, or "" when the hotel has none |
| BookingService.PriceStay | src/main/kotlin/com/expediaclon/backend/service/BookingService.kt:29-39 | an unknown room fails with NoSuchElementException first; a known room with check-out not after check-in fails with IllegalArgumentException; on success nights ≥ 1 and the total is rate × nights |
| BookingService.SaveCheck | src/main/kotlin/com/expediaclon/backend/model/Booking.kt:21-38 | a save is refused exactly when the guest names are blank (ConstraintViolation, checked first) or the total does not fit NUMERIC(10, 2) (DataIntegrity); otherwise the row saved is the booking given |
| BookingService.CreateBooking | src/main/kotlin/com/expediaclon/backend/service/BookingService.kt:27-57 | fails for an unknown room or a bad date range. Over a valid catalog it succeeds exactly when the request is bookable (the guest count plays no part). The new booking is PENDING, carries the request's fields and the owner, and is priced from its room. It is inserted under a fresh identity value; the catalog and the other bookings are unchanged. The invariant is kept |
| BookingService.AfterRefusedCreate | src/main/kotlin/com/expediaclon/backend/model/Booking.kt:15-38 | after a refused create the bookings and catalog are as before. A DataIntegrity refusal of the INSERT has consumed the next identity value; a bean-validation or service-level refusal consumed none. The invariant is kept |
| BookingService.UpdateReservation | src/main/kotlin/com/expediaclon/backend/service/BookingService.kt:79-108 | an unknown id yields `null` before any other check, with the store unchanged. Otherwise dates are revalidated and the price is recomputed from the requested room. Id, status, owner and creation time are kept; only that row changes, and the invariant is kept |
| BookingService.CancelBooking | src/main/kotlin/com/expediaclon/backend/service/BookingService.kt:112-120 | an unknown id yields `null` with no change. Otherwise the status becomes the requested one, from any status, and no other field or row changes. Under the invariant it never fails and keeps the invariant |
| BookingService.DeleteReservation | src/main/kotlin/com/expediaclon/backend/service/BookingService.kt:122-129 | reports true exactly when the id existed, removes only that id, and leaves every other row as it was |
| BookingService.ToDetail | src/main/kotlin/com/expediaclon/backend/service/BookingService.kt:132-144 | the detail view copies the booking's fields; over a valid catalog its hotel name, city and image are those of the hotel owning the booking's room |
| BookingService.GetBookingDetails | src/main/kotlin/com/expediaclon/backend/service/BookingService.kt:72-77 | fails with IllegalArgumentException exactly when the id is unknown, and otherwise returns that booking's detail view |
| BookingService.GetAllBookings | src/main/kotlin/com/expediaclon/backend/service/BookingService.kt:65-68 | the result holds the detail view of every stored booking and nothing else |
| Http.EscapedStatus | src/main/kotlin/com/expediaclon/backend/exception/GlobalExceptionHandler.kt:19-32 | an escaping exception answers 400 exactly when it is an IllegalArgumentException (a NumberFormatException included), and 500 otherwise |
| BookingController.PostBooking | src/main/kotlin/com/expediaclon/backend/controller/BookingController.kt:32-42 | 201 with the saved booking exactly when creation succeeds. Over a valid catalog, 400 exactly for an unknown room or a bad date range. A failure writes no booking. A total the price column refuses answers 500 and uses up an identity value; any other failure leaves the store unchanged. The invariant is kept |
| BookingController.RefusedCreateSkipsId | src/main/kotlin/com/expediaclon/backend/model/Booking.kt:15-38 | a room at 60,000,000.00 booked for two nights is refused with 500, since 120,000,000.00 overflows NUMERIC(10, 2), and writes nothing. The refused INSERT drew id 1, so the next successful booking gets id 2 |
| BookingController.GetBooking | src/main/kotlin/com/expediaclon/backend/controller/BookingController.kt:56-60 | 200 with the detail view for a stored id, 400 for an unknown one |
| BookingController.PutReservation | src/main/kotlin/com/expediaclon/backend/controller/BookingController.kt:64-77 | an unknown id answers 200 with a null body and no change. For a stored id, 400 exactly for an unknown room or a bad date range |
| BookingController.PatchStatus | src/main/kotlin/com/expediaclon/backend/controller/BookingController.kt:81-92 | 404 exactly when the id is unknown; otherwise 200 with the booking now in the requested status |
| BookingController.DeleteBooking | src/main/kotlin/com/expediaclon/backend/controller/BookingController.kt:95-104 | 204 exactly when the id existed, 404 exactly when it did not |
| PaymentService.MinorUnits | src/main/kotlin/com/expediaclon/backend/service/PaymentService.kt:26 | the amount is a `Long`, and equals the price in cents whenever the price fits its column |
| PaymentService.CreatePaymentIntent | src/main/kotlin/com/expediaclon/backend/service/PaymentService.kt:17-42 | text that is not a number fails at parse; an unknown id fails with "Reservation not found"; a booking that is not PENDING fails with "Only pending reservations can be paid". On success the amount sent and the amount returned are equal and equal the price in cents, the currency is "usd" in both, and the metadata `bookingId` parses back to the booking's id. A PENDING booking always succeeds when the processor answers. No store is returned, so no booking changes |
| StripeWebhook.HandleStripeEvent | src/main/kotlin/com/expediaclon/backend/controller/StripeWebhookController.kt:21-42 | a failed signature is refused and changes nothing, whatever the payload. Another event type, a missing `bookingId` or an unknown id is acknowledged with "ok" and no change. A non-numeric id fails with NumberFormatException. Otherwise exactly that booking becomes CONFIRMED from any status. No row is added or removed, and the invariant is kept |
| StripeWebhook.WebhookIdempotent | src/main/kotlin/com/expediaclon/backend/controller/StripeWebhookController.kt:36-38 | a second delivery that verifies to the same event, whatever its payload bytes and signature header, handled on the store the first delivery left, acknowledges with that same store |
| StripeWebhook.ConfirmedDeliveryIsNoop | src/main/kotlin/com/expediaclon/backend/controller/StripeWebhookController.kt:37 | an event for a booking that is already CONFIRMED leaves the store unchanged |
| StripeWebhook.PostWebhook | src/main/kotlin/com/expediaclon/backend/controller/StripeWebhookController.kt:20-42 | 200 with "ok" exactly when handling succeeds. Any escaped exception answers the status the exception handler gives its class: 400 for a non-numeric booking id (NumberFormatException), 500 for a failed signature or a missing data object. A failure leaves the store unchanged |
| Reconciliation.PaymentCorrelatesWithWebhook | src/main/kotlin/com/expediaclon/backend/controller/StripeWebhookController.kt:32-38 | a succeeded event carrying the metadata of an intent tagged with booking `id`, the way `createPaymentIntent` tags it, confirms exactly booking `id` and changes nothing else |
| Reconciliation.EndToEnd | src/main/kotlin/com/expediaclon/backend/service/BookingService.kt:35-48 | a 250.00 room for five nights books at 1250.00 PENDING; the intent is for 125000 cents; the webhook confirms the booking; a redelivery changes nothing |
| Reconciliation.CancelledIsNotTerminal | src/main/kotlin/com/expediaclon/backend/service/BookingService.kt:112-120 | a CANCELLED booking can be moved to any status by set-status, and to CONFIRMED by the webhook |
| HotelRepository.FindHotelsInCityWithSufficientCapacity | src/main/kotlin/com/expediaclon/backend/repository/HotelRepository.kt:17-26 | every hotel returned is stored, is in the city ignoring case, and has a room with capacity ≥ the party size. Every stored hotel meeting both conditions is returned, and none is returned twice |
| HotelRepository.FindByCity | src/main/kotlin/com/expediaclon/backend/repository/HotelRepository.kt:15 | returns exactly the stored hotels whose city equals the query, case-sensitively, none of them twice over a valid catalog |
| HotelRepository.ExactCityIsSearchMatch | src/main/kotlin/com/expediaclon/backend/repository/HotelRepository.kt:15-20 | a hotel found by exact city that has a room for the party is also found by the case-insensitive query |
| HotelRepository.CaseOnlyDifferenceIsSearchMatch | src/main/kotlin/com/expediaclon/backend/repository/HotelRepository.kt:15-20 | "PARIS" finds a hotel in "Paris" through the capacity query but not through `findByCity` |
| HotelService.MinPrice | src/main/kotlin/com/expediaclon/backend/service/HotelService.kt:35 | `minOfOrNull` is absent exactly for no rooms; otherwise it is ≤ every room's rate and equal to one of them |
| HotelService.ToCard | src/main/kotlin/com/expediaclon/backend/service/HotelService.kt:31-49 | a card copies id, name, city, rating and comment. Its image is the first image or "". Its price is 0 when the hotel has no rooms; otherwise it is the least rate among the hotel's rooms |
| HotelService.SearchHotels | src/main/kotlin/com/expediaclon/backend/service/HotelService.kt:26-51 | one card per hotel of the capacity query, in the same order, each for a stored hotel matching the search |
| HotelService.MapToRoomDetail | src/main/kotlin/com/expediaclon/backend/service/HotelService.kt:83-93 | the room detail copies every field of the room |
| HotelService.GetHotelDetails | src/main/kotlin/com/expediaclon/backend/service/HotelService.kt:55-80 | fails with IllegalArgumentException exactly for an unknown hotel. Otherwise it copies the hotel's fields, and its room list is exactly the hotel's rooms, each copied field for field. Over a valid catalog no room appears twice |

## Left out

- Persistence mechanics (JPA, `@Transactional`, lazy loading) and concurrency are not modelled: the store is a single-threaded value, and a failed operation returns no new store, which stands for the rollback. The one thing a rollback does not undo is modelled: a create whose INSERT the price column refuses has drawn an identity value, so the store after it has `nextId` advanced (`BookingService.AfterRefusedCreate`). Updates and status changes save over an existing id and draw none.
- Identity overflow: the bookings identity column is an unbounded integer; reaching the 64-bit limit is not modelled.
- Clock: `createdAt` comes from `Instant.now()`; the model takes it as the parameter `now`.
- Payment processor calls are parameters: `PaymentIntent.create` is `createIntent`, which returns the client secret or `None` for a failed call; `Webhook.constructEvent` is `constructEvent`, which returns the verified event or `None` for a bad signature. The exception texts of those two failures are placeholders.
- The webhook's `as PaymentIntent` cast is taken to succeed for a succeeded-payment event; only the empty deserialized object is modelled as a failure.
- Longs.ParseLong: accepts ASCII digits only, while `Long.parseLong` also accepts other Unicode decimal digits.
- HotelRepository.Lower: lower-cases ASCII letters only, while SQL `LOWER` also folds other letters.
- Query results come back in table order; the SQL query has no ORDER BY, so the database promises no order.
- `findByHotelId` is not declared in the room-type repository shown. The model reads it as "the rooms whose hotel id matches".
- The search card's price type differs between DTO revisions (string, double, decimal). The model keeps it in cents.
- Hotel rating and coordinates are doubles that are only copied; exact reals stand in for them.
- `getAllBookings` has no defined order, so the model returns a set of detail views.
- `generateConfirmationCode` (a random UUID prefix, never called) and the start-up seed data are not modelled.
- Error responses are not modelled past the status code. An exception that escapes with a 500 has its response body and logging left out. The 400 that `GlobalExceptionHandler` gives an IllegalArgumentException carries an `ErrorDetails(message, details)` body, which the model leaves out too: the response body is `None`.
- The signature's timestamp tolerance is hidden inside `constructEvent`. The real `Webhook.constructEvent` reads the clock and rejects a header whose timestamp is outside its window (300 seconds by default). The model's `constructEvent` is a pure parameter, so `StripeWebhook.WebhookIdempotent` assumes the second delivery verifies. A late replay that the clock rejects answers 500 instead.
- The GraphQL controllers, the payment controller, the user, token, mail, itinerary and semantic-search services, and the configuration classes are not part of this model.

=== FILE: booking_controller.dfy ===
/** The REST endpoints for bookings: each runs one service operation and maps
    its outcome, or the exception it throws, to a response. */
module BookingController {
  import opened Outcomes
  import opened Entities
  import opened Http
  import opened BookingService

  /** POST: 201 with the saved booking; the two exceptions the controller
      catches (unknown room, bad date range) answer 400; anything else
      escapes. A failure writes no booking, though a total the price column
      refuses uses up an identity value. */
  function PostBooking(st: Store, req: BookingRequest, userId: int, now: int): (x: Exchange<Booking>)
    ensures x.response.status == CREATED <==> CreateBooking(st, req, userId, now).Ok?
    ensures x.response.status == CREATED ==>
      && x.response.body == Some(CreateBooking(st, req, userId, now).value.booking)
      && x.store == CreateBooking(st, req, userId, now).value.store
    ensures x.response.status != CREATED ==>
      && x.response.body.None?
      && x.store.bookings == st.bookings && x.store.catalog == st.catalog
    ensures CreateBooking(st, req, userId, now) == Err(PriceOverflow) ==>
      x.response.status == INTERNAL_SERVER_ERROR && x.store.nextId == st.nextId + 1
    ensures CreateBooking(st, req, userId, now).Err? && CreateBooking(st, req, userId, now) != Err(PriceOverflow) ==>
      x.store == st
    ensures Inv(st) ==> Inv(x.store)
    ensures ValidCatalog(st.catalog) ==>
      (x.response.status == BAD_REQUEST <==> FindRoom(st.catalog, req.roomId).None? || req.checkOut <= req.checkIn)
    ensures x.response.status in {CREATED, BAD_REQUEST, INTERNAL_SERVER_ERROR}
  {
    match CreateBooking(st, req, userId, now)
    case Ok(c) => Exchange(c.store, Response(CREATED, Some(c.booking)))
    case Err(e) =>
      var after := AfterRefusedCreate(st, e);
      if e.kind == NoSuchElement || IsIllegalArgument(e.kind) then Exchange(after, Response(BAD_REQUEST, None))
      else Exchange(after, Response(EscapedStatus(e.kind), None))
  }

  /** A create the price column refuses leaves a gap in the ids. A room at
      60,000,000.00 a night booked for two nights totals 120,000,000.00, which
      NUMERIC(10, 2) cannot hold: the POST answers 500 and the INSERT has drawn
      id 1, so the next booking, one night in the same room, gets id 2. */
  lemma RefusedCreateSkipsId()
    ensures
      var c := Catalog([Hotel(1, "H", "A", "Paris", "", 0.0, 0.0, [], 0.0, "")],
                       [RoomType(7, 1, "Suite", 2, "King", 60_000_000_00, "", "", 1)]);
      var st := EmptyStore(c);
      var refused := PostBooking(st, BookingRequest(7, 20402, 20404, 2, "Ana"), 1, 0);
      var next := PostBooking(refused.store, BookingRequest(7, 20402, 20403, 2, "Ana"), 1, 0);
      && refused.response.status == INTERNAL_SERVER_ERROR
      && refused.store.bookings == st.bookings
      && next.response.status == CREATED
      && next.response.body.value.id == 2
  {
    var c := Catalog([Hotel(1, "H", "A", "Paris", "", 0.0, 0.0, [], 0.0, "")],
                     [RoomType(7, 1, "Suite", 2, "King", 60_000_000_00, "", "", 1)]);
    assert ValidCatalog(c);
    var st := EmptyStore(c);
    assert !IsBlank("Ana") by {
      assert "Ana"[0] > ' ';
    }
    assert CreateBooking(st, BookingRequest(7, 20402, 20404, 2, "Ana"), 1, 0) == Err(PriceOverflow);
  }

  /** GET by id: 200 with the detail view; an unknown id throws
      IllegalArgumentException, which the global handler answers with 400. */
  function GetBooking(st: Store, id: int): (resp: Response<BookingDetail>)
    ensures resp.status == OK <==> id in st.bookings
    ensures resp.status == BAD_REQUEST <==> id !in st.bookings
    ensures resp.status == OK ==> resp.body == Some(ToDetail(st.catalog, st.bookings[id]))
  {
    match GetBookingDetails(st, id)
    case Ok(d) => Response(OK, Some(d))
    case Err(e) => Response(EscapedStatus(e.kind), None)
  }

  /** PUT: 200 with whatever the service returned, a `null` body included when
      the id is unknown; unknown room and bad dates answer 400. */
  function PutReservation(st: Store, id: int, req: BookingRequest): (x: Exchange<Booking>)
    ensures id !in st.bookings ==> x == Exchange(st, Response(OK, None))
    ensures x.response.status == OK <==> UpdateReservation(st, id, req).Ok?
    ensures x.response.status == OK ==>
      && x.store == UpdateReservation(st, id, req).value.store
      && x.response.body == UpdateReservation(st, id, req).value.booking
    ensures x.response.status != OK ==> x.store == st
    ensures id in st.bookings && ValidCatalog(st.catalog) ==>
      (x.response.status == BAD_REQUEST <==> FindRoom(st.catalog, req.roomId).None? || req.checkOut <= req.checkIn)
    ensures x.response.status in {OK, BAD_REQUEST, INTERNAL_SERVER_ERROR}
  {
    match UpdateReservation(st, id, req)
    case Ok(u) => Exchange(u.store, Response(OK, u.booking))
    case Err(e) =>
      if e.kind == NoSuchElement || IsIllegalArgument(e.kind) then Exchange(st, Response(BAD_REQUEST, None))
      else Exchange(st, Response(EscapedStatus(e.kind), None))
  }

  /** PATCH status: 404 when the service returns `null`, otherwise 200 with
      the saved booking. */
  function PatchStatus(st: Store, id: int, status: Status): (x: Exchange<Booking>)
    ensures x.response.status == NOT_FOUND <==> id !in st.bookings
    ensures x.response.status == NOT_FOUND ==> x.store == st
    ensures Inv(st) ==> x.response.status in {OK, NOT_FOUND}
    ensures x.response.status == OK ==>
      && x.response.body.Some?
      && x.response.body.value.status == status
      && CancelBooking(st, id, status).Ok?
      && x.store == CancelBooking(st, id, status).value.store
  {
    match CancelBooking(st, id, status)
    case Ok(u) =>
      if u.booking.Some? then Exchange(u.store, Response(OK, u.booking))
      else Exchange(st, Response(NOT_FOUND, None))
    case Err(e) => Exchange(st, Response(EscapedStatus(e.kind), None))
  }

  /** DELETE: 204 when something was deleted, 404 when the id was unknown. */
  function DeleteBooking(st: Store, id: int): (x: Exchange<()>)
    ensures x.response.status == NO_CONTENT <==> id in st.bookings
    ensures x.response.status == NOT_FOUND <==> id !in st.bookings
    ensures x.store == DeleteReservation(st, id).store
    ensures x.response.body.None?
  {
    var d := DeleteReservation(st, id);
    if d.deleted then Exchange(d.store, Response(NO_CONTENT, None))
    else Exchange(d.store, Response(NOT_FOUND, None))
  }
}

=== FILE: booking_service.dfy ===
/** The reservation lifecycle: create, read, update, set-status and delete
    over the bookings table. Every operation is a function from the store to
    a result; an `Err` leaves the store as it was (the transaction rolls back
    or nothing was written). There is no guest-count check against the room's
    capacity, no ownership check and no status guard on any operation. */
module BookingService {
  import opened Outcomes
  import opened Longs
  import opened Decimals
  import opened Entities

  /** The request body of create and update. */
  datatype BookingRequest = BookingRequest(
    roomId: int,
    checkIn: int,
    checkOut: int,
    totalGuests: int,
    guestNames: string)

  /** The reservation detail view (`BookingDetailDto`). */
  datatype BookingDetail = BookingDetail(
    id: int,
    checkIn: int,
    checkOut: int,
    passengerCount: int,
    guestNames: string,
    totalPrice: int,
    status: Status,
    hotelName: string,
    hotelCity: string,
    hotelImage: string,
    roomId: int)

  /** A priced stay: the room, its hotel, the night count and the total. */
  datatype Quote = Quote(room: RoomType, hotel: Hotel, nights: int, totalPrice: int)

  datatype Created = Created(store: Store, booking: Booking)

  /** Update and set-status return the saved booking, or nothing when the id is
      unknown (a Kotlin `null`). */
  datatype Updated = Updated(store: Store, booking: Option<Booking>)

  datatype Deleted = Deleted(store: Store, deleted: bool)

  function RoomNotFound(roomId: int): Error {
    Error(NoSuchElement, "Room with ID " + LongToString(roomId) + " not found.")
  }

  const RoomWithoutHotel: Error := Error(IllegalState, "Room is not associated with any hotel.")

  const BadDateRange: Error := Error(IllegalArgument, "Check-out date must be after check-in date.")

  const GuestNamesRequired: Error := Error(ConstraintViolation, "The names of the guests are required")

  const PriceOverflow: Error := Error(DataIntegrity, "totalPrice does not fit NUMERIC(10, 2)")

  function ReservationNotFound(id: int): Error {
    Error(IllegalArgument, "Reservation with ID: " + LongToString(id) + " not found.")
  }

  /** The room lookup, hotel lookup, date check and pricing shared by create
      and update, in the order the service performs them. */
  function PriceStay(c: Catalog, req: BookingRequest): (r: Result<Quote>)
    ensures FindRoom(c, req.roomId).None? ==> r == Err(RoomNotFound(req.roomId))
    ensures ValidCatalog(c) && FindRoom(c, req.roomId).Some? && req.checkOut <= req.checkIn ==> r == Err(BadDateRange)
    ensures ValidCatalog(c) ==> (r.Ok? <==> FindRoom(c, req.roomId).Some? && req.checkIn < req.checkOut)
    ensures r.Ok? ==>
      && FindRoom(c, req.roomId) == Some(r.value.room)
      && FindHotel(c, r.value.room.hotelId) == Some(r.value.hotel)
      && r.value.nights == Nights(req.checkIn, req.checkOut) >= 1
      && r.value.totalPrice == r.value.room.pricePerNight * r.value.nights
  {
    match FindRoom(c, req.roomId)
    case None => Err(RoomNotFound(req.roomId))
    case Some(room) =>
      match FindHotel(c, room.hotelId)
      case None => Err(RoomWithoutHotel)
      case Some(hotel) =>
        var nights := Nights(req.checkIn, req.checkOut);
        if nights <= 0 then Err(BadDateRange)
        else Ok(Quote(room, hotel, nights, room.pricePerNight * nights))
  }

  /** The checks a save runs before writing: bean validation of the guest
      names, then the precision of the price column. */
  function SaveCheck(b: Booking): (r: Result<Booking>)
    ensures r.Ok? <==> Persistable(b)
    ensures r.Ok? ==> r.value == b
    ensures IsBlank(b.guestNames) ==> r == Err(GuestNamesRequired)
    ensures !IsBlank(b.guestNames) && !FitsMoneyColumn(b.totalPrice) ==> r == Err(PriceOverflow)
  {
    if IsBlank(b.guestNames) then Err(GuestNamesRequired)
    else if !FitsMoneyColumn(b.totalPrice) then Err(PriceOverflow)
    else Ok(b)
  }

  /** Everything a create (or an update of an existing booking) needs to go
      through, stated independently of how the service checks it. */
  predicate Bookable(c: Catalog, req: BookingRequest) {
    match FindRoom(c, req.roomId)
    case None => false
    case Some(room) =>
      && req.checkIn < req.checkOut
      && !IsBlank(req.guestNames)
      && FitsMoneyColumn(room.pricePerNight * Nights(req.checkIn, req.checkOut))
  }

  /** `createBooking`: prices the stay and inserts a PENDING booking under the
      next identity value. The room's `totalInventory` is never consulted. */
  function CreateBooking(st: Store, req: BookingRequest, userId: int, now: int): (r: Result<Created>)
    ensures FindRoom(st.catalog, req.roomId).None? ==> r == Err(RoomNotFound(req.roomId))
    ensures ValidCatalog(st.catalog) && FindRoom(st.catalog, req.roomId).Some? && req.checkOut <= req.checkIn ==>
      r == Err(BadDateRange)
    ensures ValidCatalog(st.catalog) ==> (r.Ok? <==> Bookable(st.catalog, req))
    ensures r.Ok? ==>
      var b := r.value.booking;
      && b.id == st.nextId
      && r.value.store == Store(st.catalog, st.bookings[b.id := b], st.nextId + 1)
      && b.status == Pending
      && b.userId == userId
      && b.createdAt == now
      && b.roomTypeId == req.roomId
      && b.checkIn == req.checkIn
      && b.checkOut == req.checkOut
      && b.passengerCount == req.totalGuests
      && b.guestNames == req.guestNames
      && PricedStay(st.catalog, b)
    ensures Inv(st) && r.Ok? ==> Inv(r.value.store) && r.value.booking.id !in st.bookings
  {
    var q :- PriceStay(st.catalog, req);
    var b :- SaveCheck(Booking(st.nextId, req.totalGuests, req.guestNames, q.room.id,
                               req.checkIn, req.checkOut, q.totalPrice, userId, Pending, now));
    Ok(Created(Store(st.catalog, st.bookings[b.id := b], st.nextId + 1), b))
  }

  /** The store a refused create leaves behind. The transaction rolls back,
      but an INSERT the database itself refused (the price column's
      DataIntegrity error) has already drawn a value from the identity column,
      and identity values are never given back. Bean validation refuses blank
      guest names before any INSERT is sent, and the earlier checks never reach
      the database, so those failures leave the store as it was. */
  function AfterRefusedCreate(st: Store, e: Error): (s: Store)
    ensures s.catalog == st.catalog && s.bookings == st.bookings
    ensures e.kind == DataIntegrity ==> s.nextId == st.nextId + 1
    ensures e.kind != DataIntegrity ==> s == st
    ensures Inv(st) ==> Inv(s)
  {
    if e.kind == DataIntegrity then st.(nextId := st.nextId + 1) else st
  }

  /** `updateReservation`: an unknown id yields nothing before any other check;
      otherwise the stay is re-priced from the requested room and saved under
      the same id, keeping status, owner and creation time. */
  function UpdateReservation(st: Store, id: int, req: BookingRequest): (r: Result<Updated>)
    ensures id !in st.bookings ==> r == Ok(Updated(st, None))
    ensures id in st.bookings && FindRoom(st.catalog, req.roomId).None? ==> r == Err(RoomNotFound(req.roomId))
    ensures (id in st.bookings && ValidCatalog(st.catalog) && FindRoom(st.catalog, req.roomId).Some?
             && req.checkOut <= req.checkIn) ==> r == Err(BadDateRange)
    ensures id in st.bookings && ValidCatalog(st.catalog) ==> (r.Ok? <==> Bookable(st.catalog, req))
    ensures r.Ok? && id in st.bookings ==>
      && r.value.booking.Some?
      && var prev, b := st.bookings[id], r.value.booking.value;
      && b.id == id
      && b.status == prev.status
      && b.userId == prev.userId
      && b.createdAt == prev.createdAt
      && b.roomTypeId == req.roomId
      && b.checkIn == req.checkIn
      && b.checkOut == req.checkOut
      && b.passengerCount == req.totalGuests
      && b.guestNames == req.guestNames
      && PricedStay(st.catalog, b)
      && r.value.store == st.(bookings := st.bookings[id := b])
    ensures Inv(st) && r.Ok? ==> Inv(r.value.store)
  {
    if id !in st.bookings then Ok(Updated(st, None))
    else
      var prev := st.bookings[id];
      var q :- PriceStay(st.catalog, req);
      var b :- SaveCheck(prev.(id := id, checkIn := req.checkIn, checkOut := req.checkOut,
                               passengerCount := req.totalGuests, guestNames := req.guestNames,
                               totalPrice := q.totalPrice, roomTypeId := q.room.id));
      OverwriteKeepsInv(st, b);
      Ok(Updated(st.(bookings := st.bookings[b.id := b]), Some(b)))
  }

  /** Writing a persistable, correctly priced booking over an existing row
      keeps the store invariant. */
  lemma OverwriteKeepsInv(st: Store, b: Booking)
    ensures Inv(st) && b.id in st.bookings && Persistable(b) && PricedStay(st.catalog, b) ==>
      Inv(st.(bookings := st.bookings[b.id := b]))
  {
  }

  /** `cancelBooking`: writes whatever status it is given, from any status. An
      unknown id yields nothing. */
  function CancelBooking(st: Store, id: int, status: Status): (r: Result<Updated>)
    ensures id !in st.bookings ==> r == Ok(Updated(st, None))
    ensures id in st.bookings && Persistable(st.bookings[id]) ==> r.Ok? && r.value.booking.Some?
    ensures r.Ok? && r.value.booking.Some? ==>
      && id in st.bookings
      && var prev, b := st.bookings[id], r.value.booking.value;
      && b.status == status
      && b.(status := prev.status) == prev
      && r.value.store == st.(bookings := st.bookings[prev.id := b])
    ensures Inv(st) ==> r.Ok? && Inv(r.value.store)
  {
    if id !in st.bookings then Ok(Updated(st, None))
    else
      var b :- SaveCheck(st.bookings[id].(status := status));
      Ok(Updated(st.(bookings := st.bookings[b.id := b]), Some(b)))
  }

  /** `deleteReservation`: reports whether the id existed and removes it. */
  function DeleteReservation(st: Store, id: int): (r: Deleted)
    ensures r.deleted <==> id in st.bookings
    ensures r.store.bookings.Keys == st.bookings.Keys - {id}
    ensures forall k :: k in r.store.bookings ==> r.store.bookings[k] == st.bookings[k]
    ensures r.store.catalog == st.catalog && r.store.nextId == st.nextId
    ensures Inv(st) ==> Inv(r.store)
  {
    if id in st.bookings then Deleted(st.(bookings := st.bookings - {id}), true)
    else Deleted(st, false)
  }

  /** `toDetailDto`: the booking's own fields plus the hotel reached through its
      room type; "N/A" and "" stand in if the room or hotel cannot be resolved. */
  function ToDetail(c: Catalog, b: Booking): (d: BookingDetail)
    ensures d.id == b.id && d.status == b.status && d.totalPrice == b.totalPrice
    ensures d.checkIn == b.checkIn && d.checkOut == b.checkOut
    ensures d.passengerCount == b.passengerCount && d.guestNames == b.guestNames
    ensures d.roomId == b.roomTypeId
    ensures ValidCatalog(c) && FindRoom(c, b.roomTypeId).Some? ==>
      var h := FindHotel(c, FindRoom(c, b.roomTypeId).value.hotelId);
      && h.Some?
      && d.hotelName == h.value.name
      && d.hotelCity == h.value.city
      && d.hotelImage == MainImage(h.value)
  {
    var hotel := match FindRoom(c, b.roomTypeId)
      case None => None
      case Some(room) => FindHotel(c, room.hotelId);
    var (name, city, image) := match hotel
      case None => ("N/A", "", "")
      case Some(h) => (h.name, h.city, MainImage(h));
    BookingDetail(b.id, b.checkIn, b.checkOut, b.passengerCount, b.guestNames,
                  b.totalPrice, b.status, name, city, image, b.roomTypeId)
  }

  /** `getBookingDetails`: the detail view, or IllegalArgumentException for an
      unknown id. */
  function GetBookingDetails(st: Store, id: int): (r: Result<BookingDetail>)
    ensures id !in st.bookings <==> r == Err(ReservationNotFound(id))
    ensures r.Ok? ==> id in st.bookings && r.value == ToDetail(st.catalog, st.bookings[id])
    ensures Inv(st) && r.Ok? ==> r.value.id == id
  {
    if id in st.bookings then Ok(ToDetail(st.catalog, st.bookings[id])) else Err(ReservationNotFound(id))
  }

  /** `getAllBookings`: the detail view of every stored booking (the table has
      no defined order, so the model returns a set). */
  function GetAllBookings(st: Store): (r: set<BookingDetail>)
    ensures forall id :: id in st.bookings ==> ToDetail(st.catalog, st.bookings[id]) in r
    ensures forall d :: d in r ==> exists id :: id in st.bookings && d == ToDetail(st.catalog, st.bookings[id])
    ensures Inv(st) ==> forall d :: d in r ==> d.id in st.bookings
  {
    set id | id in st.bookings :: ToDetail(st.catalog, st.bookings[id])
  }
}

=== FILE: decimals.dfy ===
/** `java.math.BigDecimal` as an unscaled integer and a scale, denoting
    unscaled / 10^scale. Money columns are NUMERIC(10, 2), so a stored price
    is a decimal of scale 2 and is carried through the model as whole cents. */
module Decimals {
  import opened Longs

  datatype Decimal = Decimal(unscaled: int, scale: nat)

  function Pow10(k: nat): (p: nat)
    ensures p >= 1
  {
    if k == 0 then 1 else 10 * Pow10(k - 1)
  }

  /** Precision and scale of the price columns of bookings and room types. */
  const MONEY_PRECISION: nat := 10
  const MONEY_SCALE: nat := 2

  /** The decimal a price of `cents` cents denotes. */
  function FromCents(cents: int): Decimal {
    Decimal(cents, MONEY_SCALE)
  }

  /** A scale-2 value fits a NUMERIC(10, 2) column: its unscaled value has at
      most ten digits. */
  predicate FitsMoneyColumn(cents: int) {
    -(Pow10(MONEY_PRECISION) as int) < cents < Pow10(MONEY_PRECISION)
  }

  /** `BigDecimal.multiply`: exact, and the scale of the product is the sum of
      the scales. */
  function Multiply(a: Decimal, b: Decimal): Decimal {
    Decimal(a.unscaled * b.unscaled, a.scale + b.scale)
  }

  /** `BigDecimal(100)`: the integer 100 at scale 0. */
  const HUNDRED: Decimal := Decimal(100, 0)

  /** Integer division that truncates toward zero, as the JVM's does (Dafny's
      own `/` is Euclidean). */
  function TruncDiv(a: int, b: nat): (q: int)
    requires b > 0
    ensures 0 <= a ==> 0 <= a - q * b < b
    ensures a < 0 ==> 0 <= q * b - a < b
  {
    if a >= 0 then a / b else -((-a) / b)
  }

  /** The low 64 bits of `x` read as a two's-complement `Long`. */
  function WrapLong(x: int): (r: int)
    ensures IsLong(r)
    ensures (r - x) % 0x1_0000_0000_0000_0000 == 0
    ensures IsLong(x) ==> r == x
  {
    var m := x % 0x1_0000_0000_0000_0000;
    if m <= LONG_MAX then m else m - 0x1_0000_0000_0000_0000
  }

  /** `BigDecimal.toLong`: drop the fractional part, then keep the low 64 bits. */
  function ToLong(d: Decimal): (r: int)
    ensures IsLong(r)
    ensures IsLong(TruncDiv(d.unscaled, Pow10(d.scale))) ==> r == TruncDiv(d.unscaled, Pow10(d.scale))
  {
    WrapLong(TruncDiv(d.unscaled, Pow10(d.scale)))
  }

  /** A price that fits its column converts to minor units exactly:
      `price.multiply(BigDecimal(100)).toLong()` is the price in cents, with
      no rounding and no 64-bit wrap-around. */
  lemma MinorUnitsExact(cents: int)
    ensures FitsMoneyColumn(cents) ==> ToLong(Multiply(FromCents(cents), HUNDRED)) == cents
  {
  }
}

=== FILE: entities.dfy ===
/** The persisted entities of the booking core and the store they live in.
    Dates are epoch-day numbers (`LocalDate.toEpochDay`), instants are plain
    integers, and every price is a whole number of cents (a NUMERIC(10, 2)
    value). */
module Entities {
  import opened Outcomes
  import opened Decimals

  /** The closed set of reservation states. */
  datatype Status = Pending | Confirmed | Cancelled

  /** A hotel of the catalog. Rating and coordinates are only ever copied, so
      exact reals stand in for the source's doubles. */
  datatype Hotel = Hotel(
    id: int,
    name: string,
    address: string,
    city: string,
    description: string,
    latitude: real,
    longitude: real,
    images: seq<string>,
    rating: real,
    comment: string)

  /** A bookable room type: it belongs to exactly one hotel (a non-null
      foreign key) and every field is immutable. */
  datatype RoomType = RoomType(
    id: int,
    hotelId: int,
    name: string,
    capacity: int,
    bedType: string,
    pricePerNight: int,
    imageUrl: string,
    description: string,
    totalInventory: int)

  /** A reservation. It references exactly one room type and exactly one user,
      both fixed when it is built; `status` is the one mutable field. */
  datatype Booking = Booking(
    id: int,
    passengerCount: int,
    guestNames: string,
    roomTypeId: int,
    checkIn: int,
    checkOut: int,
    totalPrice: int,
    userId: int,
    status: Status,
    createdAt: int)

  /** The catalog tables the booking core reads but never writes. */
  datatype Catalog = Catalog(hotels: seq<Hotel>, rooms: seq<RoomType>)

  /** The database: the catalog, the bookings table keyed by id, and the next
      value of the bookings identity column. */
  datatype Store = Store(catalog: Catalog, bookings: map<int, Booking>, nextId: int)

  /** Looks a row up by primary key (`findById`): a row whose key is `id`,
      or `None` when no row has it. */
  function FindById<T>(rows: seq<T>, key: T -> int, id: int): (r: Option<T>)
    ensures r.Some? ==> r.value in rows && key(r.value) == id
    ensures r.None? <==> forall i :: 0 <= i < |rows| ==> key(rows[i]) != id
  {
    if |rows| == 0 then None
    else if key(rows[0]) == id then Some(rows[0])
    else FindById(rows[1..], key, id)
  }

  /** The primary keys of the two catalog tables. */
  function RoomId(x: RoomType): int {
    x.id
  }

  function HotelId(h: Hotel): int {
    h.id
  }

  function FindRoom(c: Catalog, id: int): Option<RoomType> {
    FindById(c.rooms, RoomId, id)
  }

  function FindHotel(c: Catalog, id: int): Option<Hotel> {
    FindById(c.hotels, HotelId, id)
  }

  /** No two rows of the sequence share a primary key. */
  predicate DistinctKeys<T>(rows: seq<T>, key: T -> int) {
    forall i, j :: 0 <= i < j < |rows| ==> key(rows[i]) != key(rows[j])
  }

  /** Rows drawn from the tail of a key-distinct sequence never carry the
      head's key. */
  lemma HeadKeyNotInTail<T>(rows: seq<T>, rest: seq<T>, key: T -> int)
    requires |rows| > 0 && forall x :: x in rest ==> x in rows[1..]
    ensures DistinctKeys(rows, key) ==> forall j :: 0 <= j < |rest| ==> key(rest[j]) != key(rows[0])
  {
    if DistinctKeys(rows, key) {
      forall j | 0 <= j < |rest|
        ensures key(rest[j]) != key(rows[0])
      {
        assert rest[j] in rows[1..];
        var k :| 0 <= k < |rows[1..]| && rows[1..][k] == rest[j];
        assert rows[k + 1] == rest[j];
      }
    }
  }

  /** The first image of a hotel, or "" when it has none (`images.firstOrNull() ?: ""`). */
  function MainImage(h: Hotel): (img: string)
    ensures |h.images| == 0 ==> img == ""
    ensures |h.images| > 0 ==> img == h.images[0]
  {
    if |h.images| == 0 then "" else h.images[0]
  }

  /** Every room type of a hotel, in table order (`findByHotelId`). */
  function RoomsOfHotel(rooms: seq<RoomType>, hotelId: int): (r: seq<RoomType>)
    ensures forall x :: x in r <==> x in rooms && x.hotelId == hotelId
    ensures |r| <= |rooms|
    ensures DistinctKeys(rooms, RoomId) ==> DistinctKeys(r, RoomId)
  {
    if |rooms| == 0 then []
    else
      var rest := RoomsOfHotel(rooms[1..], hotelId);
      if rooms[0].hotelId == hotelId then
        HeadKeyNotInTail(rooms, rest, RoomId);
        [rooms[0]] + rest
      else rest
  }

  /** Primary keys are unique, every room's hotel exists, and every rate fits
      its NUMERIC(10, 2) column. */
  predicate ValidCatalog(c: Catalog) {
    && DistinctKeys(c.hotels, HotelId)
    && DistinctKeys(c.rooms, RoomId)
    && (forall i :: 0 <= i < |c.rooms| ==> FindHotel(c, c.rooms[i].hotelId).Some?)
    && (forall i :: 0 <= i < |c.rooms| ==> FitsMoneyColumn(c.rooms[i].pricePerNight))
  }

  /** `@NotBlank` as Hibernate Validator checks it: blank means nothing is
      left after trimming, and `trim` drops every character up to U+0020. */
  predicate IsBlank(s: string) {
    forall i :: 0 <= i < |s| ==> s[i] <= ' '
  }

  /** What the entity's column and validation constraints let a save through. */
  predicate Persistable(b: Booking) {
    !IsBlank(b.guestNames) && FitsMoneyColumn(b.totalPrice)
  }

  /** Stay length as `ChronoUnit.DAYS.between(checkIn, checkOut)`. */
  function Nights(checkIn: int, checkOut: int): int {
    checkOut - checkIn
  }

  /** A booking is priced from its room: a stay of at least one night at the
      room's nightly rate. */
  predicate PricedStay(c: Catalog, b: Booking) {
    match FindRoom(c, b.roomTypeId)
    case None => false
    case Some(room) =>
      Nights(b.checkIn, b.checkOut) >= 1 && b.totalPrice == room.pricePerNight * Nights(b.checkIn, b.checkOut)
  }

  /** What the booking operations keep true of the store they are given. */
  predicate Inv(st: Store) {
    && ValidCatalog(st.catalog)
    && st.nextId >= 1
    && forall id :: id in st.bookings ==>
         && st.bookings[id].id == id
         && 1 <= id < st.nextId
         && Persistable(st.bookings[id])
         && PricedStay(st.catalog, st.bookings[id])
  }

  /** The empty database over a catalog. */
  function EmptyStore(c: Catalog): (st: Store)
    requires ValidCatalog(c)
    ensures Inv(st) && |st.bookings| == 0
  {
    Store(c, map[], 1)
  }
}

=== FILE: hotel_repository.dfy ===
/** The hotel queries used by search: the derived `findByCity` and the JPQL
    query `findHotelsInCityWithSufficientCapacity`. Results come back in table
    order. */
module HotelRepository {
  import opened Entities

  /** SQL `LOWER` on one character (ASCII letters only). */
  function LowerChar(c: char): char {
    if 'A' <= c <= 'Z' then (c as int + 32) as char else c
  }

  function Lower(s: string): (t: string)
    ensures |t| == |s|
    ensures forall i :: 0 <= i < |s| ==> t[i] == LowerChar(s[i])
  {
    seq(|s|, i requires 0 <= i < |s| => LowerChar(s[i]))
  }

  /** The query's city test: both cities compared lower-cased. */
  predicate SameCityIgnoringCase(a: string, b: string) {
    Lower(a) == Lower(b)
  }

  /** The join condition: some room type of the hotel seats `minCapacity`. */
  predicate HasRoomFor(rooms: seq<RoomType>, hotelId: int, minCapacity: int) {
    exists i :: 0 <= i < |rooms| && rooms[i].hotelId == hotelId && rooms[i].capacity >= minCapacity
  }

  predicate MatchesSearch(c: Catalog, h: Hotel, city: string, minCapacity: int) {
    SameCityIgnoringCase(h.city, city) && HasRoomFor(c.rooms, h.id, minCapacity)
  }

  /** The hotels of `hs` that match the search, each once, in order. */
  function FilterSearch(hs: seq<Hotel>, c: Catalog, city: string, minCapacity: int): (r: seq<Hotel>)
    ensures forall h :: h in r <==> h in hs && MatchesSearch(c, h, city, minCapacity)
    ensures |r| <= |hs|
    ensures DistinctKeys(hs, HotelId) ==> DistinctKeys(r, HotelId)
  {
    if |hs| == 0 then []
    else
      var rest := FilterSearch(hs[1..], c, city, minCapacity);
      if MatchesSearch(c, hs[0], city, minCapacity) then
        HeadKeyNotInTail(hs, rest, HotelId);
        [hs[0]] + rest
      else rest
  }

  /** The capacity search: hotels joined to their room types, kept when the
      lower-cased city equals the lower-cased query and some room seats at
      least `minCapacity`, with duplicates from the join removed. So the result
      is exactly the stored hotels in that city (ignoring case) with a room
      seating the party, none of them twice. */
  function FindHotelsInCityWithSufficientCapacity(c: Catalog, city: string, minCapacity: int): (r: seq<Hotel>)
    ensures forall h :: h in r ==> h in c.hotels && SameCityIgnoringCase(h.city, city)
    ensures forall h :: h in r ==> HasRoomFor(c.rooms, h.id, minCapacity)
    ensures forall h :: h in c.hotels && MatchesSearch(c, h, city, minCapacity) ==> h in r
    ensures ValidCatalog(c) ==> DistinctKeys(r, HotelId)
  {
    FilterSearch(c.hotels, c, city, minCapacity)
  }

  /** The hotels of `hs` whose city is exactly `city`, in order. */
  function FilterCity(hs: seq<Hotel>, city: string): (r: seq<Hotel>)
    ensures forall h :: h in r <==> h in hs && h.city == city
    ensures DistinctKeys(hs, HotelId) ==> DistinctKeys(r, HotelId)
  {
    if |hs| == 0 then []
    else
      var rest := FilterCity(hs[1..], city);
      if hs[0].city == city then
        HeadKeyNotInTail(hs, rest, HotelId);
        [hs[0]] + rest
      else rest
  }

  /** `findByCity`: case-sensitive equality on the city. */
  function FindByCity(c: Catalog, city: string): (r: seq<Hotel>)
    ensures forall h :: h in r <==> h in c.hotels && h.city == city
    ensures ValidCatalog(c) ==> DistinctKeys(r, HotelId)
  {
    FilterCity(c.hotels, city)
  }

  /** The case-sensitive query is the stricter one: a hotel `findByCity`
      returns that has a room for the party is also returned by the capacity
      query, while the converse fails for a city spelled in another case. */
  lemma ExactCityIsSearchMatch(c: Catalog, city: string, minCapacity: int, h: Hotel)
    requires h in FindByCity(c, city) && HasRoomFor(c.rooms, h.id, minCapacity)
    ensures h in FindHotelsInCityWithSufficientCapacity(c, city, minCapacity)
  {
  }

  lemma CaseOnlyDifferenceIsSearchMatch()
    ensures
      var h := Hotel(1, "H", "A", "Paris", "", 0.0, 0.0, [], 0.0, "");
      var c := Catalog([h], [RoomType(7, 1, "R", 2, "B", 100, "", "", 1)]);
      && h in FindHotelsInCityWithSufficientCapacity(c, "PARIS", 2)
      && h !in FindByCity(c, "PARIS")
  {
    var h := Hotel(1, "H", "A", "Paris", "", 0.0, 0.0, [], 0.0, "");
    var c := Catalog([h], [RoomType(7, 1, "R", 2, "B", 100, "", "", 1)]);
    assert Lower("Paris") == Lower("PARIS");
    assert c.rooms[0].hotelId == h.id && c.rooms[0].capacity >= 2;
  }
}

=== FILE: hotel_service.dfy ===
/** Hotel search cards and hotel details, built from the catalog. */
module HotelService {
  import opened Outcomes
  import opened Longs
  import opened Entities
  import opened HotelRepository

  /** A search result (`HotelCardDto`); the price is the cheapest nightly
      rate of the hotel, in cents. */
  datatype HotelCard = HotelCard(
    id: int,
    name: string,
    city: string,
    mainImage: string,
    pricePerNight: int,
    rating: real,
    comment: string)

  /** A room type in the detail view (`RoomTypeDetailDto`). */
  datatype RoomDetail = RoomDetail(
    id: int,
    capacity: int,
    name: string,
    bedType: string,
    pricePerNight: int,
    imageUrl: string,
    description: string)

  /** The hotel detail view (`HotelDetailDto`). */
  datatype HotelDetail = HotelDetail(
    id: int,
    name: string,
    rating: real,
    comment: string,
    description: string,
    city: string,
    latitude: real,
    longitude: real,
    address: string,
    images: seq<string>,
    rooms: seq<RoomDetail>)

  function HotelNotFound(hotelId: int): Error {
    Error(IllegalArgument, "Hotel con ID " + LongToString(hotelId) + " no encontrado.")
  }

  /** `rooms.minOfOrNull { it.pricePerNight }`: the least rate, or `None`
      when there are no rooms. */
  function MinPrice(rooms: seq<RoomType>): (r: Option<int>)
    ensures r.None? <==> |rooms| == 0
    ensures r.Some? ==> forall i :: 0 <= i < |rooms| ==> r.value <= rooms[i].pricePerNight
    ensures r.Some? ==> exists i :: 0 <= i < |rooms| && rooms[i].pricePerNight == r.value
  {
    if |rooms| == 0 then None
    else
      match MinPrice(rooms[1..])
      case None => Some(rooms[0].pricePerNight)
      case Some(m) =>
        assert forall i :: 1 <= i < |rooms| ==> rooms[i] == rooms[1..][i - 1];
        if rooms[0].pricePerNight <= m then Some(rooms[0].pricePerNight) else Some(m)
  }

  /** The card of one hotel: its own fields, its first image, and the cheapest
      rate among its room types (zero when it has none). */
  function ToCard(c: Catalog, h: Hotel): (card: HotelCard)
    ensures card.id == h.id && card.name == h.name && card.city == h.city
    ensures card.rating == h.rating && card.comment == h.comment
    ensures |h.images| == 0 ==> card.mainImage == ""
    ensures |h.images| > 0 ==> card.mainImage == h.images[0]
    ensures (forall x :: x in c.rooms ==> x.hotelId != h.id) ==> card.pricePerNight == 0
    ensures forall x :: x in c.rooms && x.hotelId == h.id ==> card.pricePerNight <= x.pricePerNight
    ensures (exists x :: x in c.rooms && x.hotelId == h.id) ==>
      exists x :: x in c.rooms && x.hotelId == h.id && x.pricePerNight == card.pricePerNight
  {
    var rooms := RoomsOfHotel(c.rooms, h.id);
    var price := match MinPrice(rooms)
      case None => 0
      case Some(m) => m;
    assert forall x :: x in c.rooms && x.hotelId == h.id ==> x in rooms;
    HotelCard(h.id, h.name, h.city, MainImage(h), price, h.rating, h.comment)
  }

  function CardsOf(c: Catalog, hs: seq<Hotel>): (r: seq<HotelCard>)
    ensures |r| == |hs|
    ensures forall i :: 0 <= i < |hs| ==> r[i] == ToCard(c, hs[i])
  {
    if |hs| == 0 then [] else [ToCard(c, hs[0])] + CardsOf(c, hs[1..])
  }

  /** `searchHotels`: one card per hotel the capacity query returns, in the
      same order. */
  function SearchHotels(c: Catalog, city: string, passengerCount: int): (r: seq<HotelCard>)
    ensures var hs := FindHotelsInCityWithSufficientCapacity(c, city, passengerCount);
      |r| == |hs| && forall i :: 0 <= i < |hs| ==> r[i] == ToCard(c, hs[i])
    ensures forall i :: 0 <= i < |r| ==>
      exists h :: h in c.hotels && MatchesSearch(c, h, city, passengerCount) && r[i].id == h.id
  {
    var hs := FindHotelsInCityWithSufficientCapacity(c, city, passengerCount);
    var r := CardsOf(c, hs);
    assert forall i :: 0 <= i < |r| ==> hs[i] in hs && r[i].id == hs[i].id;
    r
  }

  /** `mapToRoomDetailDto`. */
  function MapToRoomDetail(room: RoomType): (d: RoomDetail)
    ensures d.id == room.id && d.capacity == room.capacity && d.name == room.name
    ensures d.bedType == room.bedType && d.pricePerNight == room.pricePerNight
    ensures d.imageUrl == room.imageUrl && d.description == room.description
  {
    RoomDetail(room.id, room.capacity, room.name, room.bedType, room.pricePerNight, room.imageUrl, room.description)
  }

  function RoomDetails(rooms: seq<RoomType>): (r: seq<RoomDetail>)
    ensures |r| == |rooms|
    ensures forall i :: 0 <= i < |rooms| ==> r[i] == MapToRoomDetail(rooms[i])
  {
    if |rooms| == 0 then [] else [MapToRoomDetail(rooms[0])] + RoomDetails(rooms[1..])
  }

  /** `getHotelDetails`: the hotel's fields and its room types, or
      IllegalArgumentException for an unknown id. */
  function GetHotelDetails(c: Catalog, hotelId: int): (r: Result<HotelDetail>)
    ensures FindHotel(c, hotelId).None? <==> r == Err(HotelNotFound(hotelId))
    ensures r.Ok? ==>
      var h := FindHotel(c, hotelId).value;
      && r.value.id == hotelId && r.value.name == h.name && r.value.city == h.city
      && r.value.address == h.address && r.value.images == h.images
      && r.value.rating == h.rating && r.value.comment == h.comment && r.value.description == h.description
      && r.value.latitude == h.latitude && r.value.longitude == h.longitude
    ensures r.Ok? ==>
      var rooms := RoomsOfHotel(c.rooms, hotelId);
      && |r.value.rooms| == |rooms|
      && forall i :: 0 <= i < |rooms| ==> r.value.rooms[i] == MapToRoomDetail(rooms[i])
    ensures r.Ok? ==> forall x :: x in c.rooms && x.hotelId == hotelId ==> MapToRoomDetail(x) in r.value.rooms
    ensures ValidCatalog(c) && r.Ok? ==>
      forall i, j :: 0 <= i < j < |r.value.rooms| ==> r.value.rooms[i].id != r.value.rooms[j].id
  {
    match FindHotel(c, hotelId)
    case None => Err(HotelNotFound(hotelId))
    case Some(h) =>
      var rooms := RoomsOfHotel(c.rooms, hotelId);
      var details := RoomDetails(rooms);
      assert forall x :: x in c.rooms && x.hotelId == hotelId ==>
        exists i :: 0 <= i < |rooms| && rooms[i] == x && details[i] == MapToRoomDetail(x);
      Ok(HotelDetail(h.id, h.name, h.rating, h.comment, h.description, h.city,
                     h.latitude, h.longitude, h.address, h.images, details))
  }
}

=== FILE: http.dfy ===
/** The HTTP side of the controllers: a status code and an optional body, and
    the status Spring answers with when an exception escapes a controller. */
module Http {
  import opened Outcomes
  import opened Entities

  const OK: int := 200
  const CREATED: int := 201
  const NO_CONTENT: int := 204
  const BAD_REQUEST: int := 400
  const NOT_FOUND: int := 404
  const INTERNAL_SERVER_ERROR: int := 500

  /** A response entity; `body == None` is an empty (or `null`) body. */
  datatype Response<T> = Response(status: int, body: Option<T>)

  /** A handled request: the store after it and the response sent. */
  datatype Exchange<T> = Exchange(store: Store, response: Response<T>)

  /** The status of an exception no `catch` in the controller handles: the
      global handler answers IllegalArgumentException (and its subclasses, such
      as NumberFormatException) with 400; anything else becomes a 500. */
  function EscapedStatus(k: ExceptionKind): (code: int)
    ensures code == BAD_REQUEST <==> IsIllegalArgument(k)
    ensures code == BAD_REQUEST || code == INTERNAL_SERVER_ERROR
  {
    if IsIllegalArgument(k) then BAD_REQUEST else INTERNAL_SERVER_ERROR
  }
}

=== FILE: longs.dfy ===
/** 64-bit `Long` values and their decimal text form, as used for entity ids:
    `Long.toString` renders an id and `String.toLong` parses one back. */
module Longs {
  import opened Outcomes

  const LONG_MIN: int := -0x8000_0000_0000_0000
  const LONG_MAX: int := 0x7FFF_FFFF_FFFF_FFFF

  predicate IsLong(n: int) {
    LONG_MIN <= n <= LONG_MAX
  }

  predicate IsDigit(c: char) {
    '0' <= c <= '9'
  }

  predicate IsSign(c: char) {
    c == '-' || c == '+'
  }

  predicate AllDigits(s: string) {
    forall i :: 0 <= i < |s| ==> IsDigit(s[i])
  }

  function DigitValue(c: char): nat
    requires IsDigit(c)
  {
    c as int - '0' as int
  }

  function DigitChar(d: nat): (c: char)
    requires d < 10
    ensures IsDigit(c) && DigitValue(c) == d
  {
    ('0' as int + d) as char
  }

  /** The decimal digits of `n`, most significant first, with no leading zero. */
  function NatToDigits(n: nat): (s: string)
    ensures |s| >= 1 && AllDigits(s)
    ensures s[0] == '0' <==> n == 0
    decreases n
  {
    if n < 10 then [DigitChar(n)] else NatToDigits(n / 10) + [DigitChar(n % 10)]
  }

  /** The number a string of decimal digits denotes (leading zeros allowed). */
  function DigitsValue(s: string): nat
    requires AllDigits(s)
  {
    if |s| == 0 then 0 else DigitsValue(s[..|s| - 1]) * 10 + DigitValue(s[|s| - 1])
  }

  /** `Long.toString`: an optional minus sign followed by the digits of the magnitude. */
  function LongToString(n: int): (s: string)
    ensures |s| >= 1
    ensures n < 0 <==> s[0] == '-'
    ensures AllDigits(s[1..])
    ensures n >= 0 ==> AllDigits(s) && (s[0] == '0' ==> n == 0)
    ensures n < 0 ==> |s| >= 2 && s[1] != '0'
  {
    if n < 0 then "-" + NatToDigits(-n) else NatToDigits(n)
  }

  /** Kotlin's `String.toLong` (`Long.parseLong`): an optional leading sign and
      one or more decimal digits whose value is a `Long`; anything else throws
      NumberFormatException, modelled as `None`. */
  function ParseLong(s: string): (r: Option<int>)
    ensures r.Some? ==> IsLong(r.value)
    ensures |s| == 0 ==> r.None?
    ensures (exists i :: 0 <= i < |s| && !IsDigit(s[i]) && !(i == 0 && IsSign(s[i]))) ==> r.None?
    ensures r.Some? && r.value < 0 ==> s[0] == '-'
    ensures |s| == 1 && IsSign(s[0]) ==> r.None?
    ensures |s| > 0 && AllDigits(s) ==> (r.Some? <==> DigitsValue(s) <= LONG_MAX)
    ensures |s| > 0 && AllDigits(s) && r.Some? ==> r.value == DigitsValue(s)
  {
    if |s| == 0 then None
    else
      var start := if IsSign(s[0]) then 1 else 0;
      var digits := s[start..];
      if |digits| == 0 || !AllDigits(digits) then None
      else
        var magnitude: int := DigitsValue(digits);
        var v := if s[0] == '-' then -magnitude else magnitude;
        if IsLong(v) then Some(v) else None
  }

  /** A leading sign in front of a run of digits: `+` changes nothing, and `-`
      negates the value, whose range then reaches one further, down to
      `Long.MIN_VALUE`. */
  lemma SignedDigits(d: string)
    requires |d| > 0 && AllDigits(d)
    ensures ParseLong("+" + d) == ParseLong(d)
    ensures ParseLong("-" + d).Some? <==> DigitsValue(d) <= -LONG_MIN
    ensures ParseLong("-" + d).Some? ==> ParseLong("-" + d).value + DigitsValue(d) == 0
  {
    assert ("+" + d)[1..] == d && ("-" + d)[1..] == d;
  }

  /** The edges of `Long.parseLong` on short texts: leading zeros and a plus
      sign are accepted, a lone sign is not. */
  lemma ParseLongEdges()
    ensures ParseLong("007") == Some(7)
    ensures ParseLong("+5") == Some(5) && ParseLong("-5") == Some(-5)
    ensures ParseLong("-") == None && ParseLong("+") == None
  {
    assert DigitsValue("007") == 7 by {
      assert "007"[..2] == "00" && "00"[..1] == "0" && "0"[..0] == "";
    }
    assert DigitsValue("5") == 5 by {
      assert "5"[..0] == "";
    }
    assert "+5"[1..] == "5" && "-5"[1..] == "5";
  }

  /** The exception `String.toLong` throws for text it cannot parse. */
  function NumberFormatError(s: string): Error {
    Error(NumberFormat, "For input string: \"" + s + "\"")
  }

  lemma {:induction false} DigitsRoundTrip(n: nat)
    ensures DigitsValue(NatToDigits(n)) == n
    decreases n
  {
    if n >= 10 {
      DigitsRoundTrip(n / 10);
      var s := NatToDigits(n / 10);
      var t := s + [DigitChar(n % 10)];
      assert t[..|t| - 1] == s;
    }
  }

  /** Parsing the text of a `Long` gives the `Long` back: the id written into
      payment metadata is the id the webhook reads. */
  lemma LongRoundTrip(n: int)
    requires IsLong(n)
    ensures ParseLong(LongToString(n)) == Some(n)
  {
    var s := LongToString(n);
    if n < 0 {
      DigitsRoundTrip(-n);
      assert s[1..] == NatToDigits(-n);
    } else {
      DigitsRoundTrip(n);
      assert s[0..] == s;
    }
  }

  /** The decimal text of a number outside the `Long` range does not parse:
      one past `Long.MAX_VALUE` or below `Long.MIN_VALUE` is rejected even
      though every character is a digit. */
  lemma {:induction false} OutOfRangeTextFails(n: int)
    requires !IsLong(n)
    ensures ParseLong(LongToString(n)) == None
  {
    var s := LongToString(n);
    if n < 0 {
      DigitsRoundTrip(-n);
      assert s[1..] == NatToDigits(-n);
    } else {
      DigitsRoundTrip(n);
      assert s[0..] == s;
    }
  }

  /** Distinct `Long`s have distinct texts. */
  lemma LongToStringInjective(a: int, b: int)
    requires IsLong(a) && IsLong(b) && LongToString(a) == LongToString(b)
    ensures a == b
  {
    LongRoundTrip(a);
    LongRoundTrip(b);
  }
}

=== FILE: outcomes.dfy ===
/** Failure-carrying results for the service layer. The Kotlin code signals
    failures by throwing; the model returns the exception class and its
    message instead, so that the HTTP layer can map them as Spring does. */
module Outcomes {

  datatype Option<+T> = None | Some(value: T) {
    predicate IsFailure() {
      None?
    }

    function PropagateFailure<U>(): Option<U>
      requires None?
    {
      None
    }

    function Extract(): T
      requires Some?
    {
      value
    }
  }

  /** The exception classes the core throws or lets escape. */
  datatype ExceptionKind =
    | NoSuchElement          // java.util.NoSuchElementException
    | IllegalArgument        // java.lang.IllegalArgumentException
    | NumberFormat           // java.lang.NumberFormatException (an IllegalArgumentException)
    | IllegalState           // java.lang.IllegalStateException
    | Runtime                // a plain RuntimeException
    | ConstraintViolation    // bean validation rejecting an entity when it is saved
    | DataIntegrity          // the database rejecting a column value
    | SignatureVerification  // the payment processor's webhook signature did not verify
    | Processor              // the payment processor's API call failed

  /** Whether a handler for IllegalArgumentException catches this kind. */
  predicate IsIllegalArgument(k: ExceptionKind) {
    k == IllegalArgument || k == NumberFormat
  }

  datatype Error = Error(kind: ExceptionKind, message: string)

  /** An outcome that `:-` threads: a failure stops the computation and is
      passed on unchanged, as an uncaught exception would be. */
  datatype Result<+T> = Ok(value: T) | Err(error: Error) {
    predicate IsFailure() {
      Err?
    }

    function PropagateFailure<U>(): Result<U>
      requires Err?
    {
      Err(error)
    }

    function Extract(): T
      requires Ok?
    {
      value
    }
  }
}

=== FILE: payment_service.dfy ===
/** The payment bridge: asks the payment processor for a payment intent for a
    PENDING booking. The processor call itself is a parameter
    (`createIntent`), returning the intent's client secret or `None` when the
    call fails. The store is only read: intent creation never changes a
    booking. */
module PaymentService {
  import opened Outcomes
  import opened Longs
  import opened Decimals
  import opened Entities

  /** What is sent to the processor (`PaymentIntentCreateParams`). */
  datatype IntentParams = IntentParams(
    amount: int,
    currency: string,
    paymentMethodTypes: seq<string>,
    metadata: map<string, string>)

  /** What is returned to the client (`PaymentIntentResponse`). */
  datatype PaymentIntentResponse = PaymentIntentResponse(clientSecret: string, amount: int, currency: string)

  datatype Intent = Intent(params: IntentParams, response: PaymentIntentResponse)

  const CURRENCY: string := "usd"
  const CARD: string := "card"

  /** The metadata key that carries the booking id to the webhook. */
  const BOOKING_ID_KEY: string := "bookingId"

  const ReservationMissing: Error := Error(Runtime, "Reservation not found")
  const OnlyPending: Error := Error(Runtime, "Only pending reservations can be paid")
  const ProcessorFailed: Error := Error(Processor, "The payment intent could not be created")

  /** The amount in minor units: `totalPrice.multiply(BigDecimal(100)).toLong()`. */
  function MinorUnits(totalPrice: int): (amount: int)
    ensures IsLong(amount)
    ensures FitsMoneyColumn(totalPrice) ==> amount == totalPrice
  {
    MinorUnitsExact(totalPrice);
    ToLong(Multiply(FromCents(totalPrice), HUNDRED))
  }

  /** `createPaymentIntent`: parse the id, load the booking, refuse anything not
      PENDING, then request an intent for the price in cents, tagged with the
      booking id. */
  function CreatePaymentIntent(st: Store, bookingId: string, createIntent: IntentParams -> Option<string>): (r: Result<Intent>)
    ensures ParseLong(bookingId).None? ==> r == Err(NumberFormatError(bookingId))
    ensures ParseLong(bookingId).Some? && ParseLong(bookingId).value !in st.bookings ==> r == Err(ReservationMissing)
    ensures (ParseLong(bookingId).Some? && ParseLong(bookingId).value in st.bookings
             && st.bookings[ParseLong(bookingId).value].status != Pending) ==> r == Err(OnlyPending)
    ensures r.Ok? ==>
      var id := ParseLong(bookingId).value;
      var b := st.bookings[id];
      var p := r.value.params;
      && ParseLong(bookingId).Some? && id in st.bookings
      && b.status == Pending
      && p.amount == r.value.response.amount == MinorUnits(b.totalPrice)
      && p.currency == r.value.response.currency == CURRENCY
      && BOOKING_ID_KEY in p.metadata
      && p.metadata[BOOKING_ID_KEY] == LongToString(b.id)
      && createIntent(p) == Some(r.value.response.clientSecret)
    ensures (ParseLong(bookingId).Some? && ParseLong(bookingId).value in st.bookings
             && st.bookings[ParseLong(bookingId).value].status == Pending
             && forall p :: createIntent(p).Some?) ==> r.Ok?
    ensures Inv(st) && r.Ok? ==>
      var id := ParseLong(bookingId).value;
      && r.value.response.amount == st.bookings[id].totalPrice
      && ParseLong(r.value.params.metadata[BOOKING_ID_KEY]) == Some(id)
  {
    match ParseLong(bookingId)
    case None => Err(NumberFormatError(bookingId))
    case Some(id) =>
      if id !in st.bookings then Err(ReservationMissing)
      else
        var b := st.bookings[id];
        if b.status != Pending then Err(OnlyPending)
        else
          var amount := MinorUnits(b.totalPrice);
          var params := IntentParams(amount, CURRENCY, [CARD], map[BOOKING_ID_KEY := LongToString(b.id)]);
          match createIntent(params)
          case None => Err(ProcessorFailed)
          case Some(secret) =>
            LongRoundTrip(id);
            Ok(Intent(params, PaymentIntentResponse(secret, amount, CURRENCY)))
  }
}

=== FILE: reconciliation.dfy ===
/** How the payment bridge and the webhook fit together over one booking: the
    id written into the intent's metadata is the id the webhook confirms, and
    the whole create / pay / confirm / redeliver path ends CONFIRMED. */
module Reconciliation {
  import opened Outcomes
  import opened Longs
  import opened Entities
  import opened BookingService
  import opened PaymentService
  import opened StripeWebhook

  /** The succeeded event the processor sends for an intent: it carries the
      intent's metadata back unchanged. */
  function SucceededEventFor(i: Intent): Event {
    Event(PAYMENT_SUCCEEDED, Some(i.params.metadata))
  }

  /** The webhook for an intent tagged with booking `id`, the way
      `createPaymentIntent` tags it, confirms exactly that booking and changes
      nothing else: the text written into the metadata parses back to `id`. */
  lemma PaymentCorrelatesWithWebhook(
    st: Store, id: int, intent: Intent,
    payload: string, sigHeader: string, endpointSecret: string,
    constructEvent: (string, string, string) -> Option<Event>)
    requires Inv(st) && id in st.bookings && IsLong(id)
    requires BOOKING_ID_KEY in intent.params.metadata && intent.params.metadata[BOOKING_ID_KEY] == LongToString(id)
    requires constructEvent(payload, sigHeader, endpointSecret) == Some(SucceededEventFor(intent))
    ensures HandleStripeEvent(st, payload, sigHeader, endpointSecret, constructEvent)
      == Ok(Ack(st.(bookings := st.bookings[id := st.bookings[id].(status := Confirmed)]), ACK_BODY))
  {
    LongRoundTrip(id);
  }

  /** Room type `roomId` at 250.00 a night, booked for 2025-11-10 to
      2025-11-15 (epoch days 20402 to 20407): the booking costs 1250.00 and
      stays PENDING through intent creation; the succeeded webhook confirms
      it, and a redelivery leaves the store as the first delivery left it. */
  lemma EndToEnd(
    st: Store, roomId: int, userId: int, now: int, names: string,
    createIntent: IntentParams -> Option<string>,
    payload: string, sigHeader: string, endpointSecret: string,
    constructEvent: (string, string, string) -> Option<Event>)
    requires Inv(st) && IsLong(st.nextId)
    requires FindRoom(st.catalog, roomId).Some? && FindRoom(st.catalog, roomId).value.pricePerNight == 250_00
    requires !IsBlank(names)
    requires forall p :: createIntent(p).Some?
    requires constructEvent(payload, sigHeader, endpointSecret)
             == Some(Event(PAYMENT_SUCCEEDED, Some(map[BOOKING_ID_KEY := LongToString(st.nextId)])))
    ensures
      var req := BookingRequest(roomId, 20402, 20407, 2, names);
      var created := CreateBooking(st, req, userId, now);
      && created.Ok?
      && var s1, b := created.value.store, created.value.booking;
      && b.totalPrice == 1250_00 && b.status == Pending
      && var intent := CreatePaymentIntent(s1, LongToString(b.id), createIntent);
      && intent.Ok? && intent.value.response.amount == 1250_00
      && var delivered := HandleStripeEvent(s1, payload, sigHeader, endpointSecret, constructEvent);
      && delivered.Ok?
      && delivered.value.store.bookings[b.id].status == Confirmed
      && HandleStripeEvent(delivered.value.store, payload, sigHeader, endpointSecret, constructEvent) == delivered
  {
    var req := BookingRequest(roomId, 20402, 20407, 2, names);
    assert Bookable(st.catalog, req);
    var created := CreateBooking(st, req, userId, now);
    var s1, b := created.value.store, created.value.booking;
    LongRoundTrip(b.id);
    var intent := CreatePaymentIntent(s1, LongToString(b.id), createIntent);
    assert intent.Ok?;
    PaymentCorrelatesWithWebhook(s1, b.id, intent.value, payload, sigHeader, endpointSecret, constructEvent);
    WebhookIdempotent(s1, payload, sigHeader, payload, sigHeader, endpointSecret, constructEvent);
  }

  /** CANCELLED is not terminal as written: the status endpoint moves a
      cancelled booking back to any status, and the webhook confirms it. */
  lemma CancelledIsNotTerminal(
    st: Store, id: int, to: Status,
    payload: string, sigHeader: string, endpointSecret: string,
    constructEvent: (string, string, string) -> Option<Event>)
    requires Inv(st) && id in st.bookings && st.bookings[id].status == Cancelled
    requires constructEvent(payload, sigHeader, endpointSecret).Some?
    requires CorrelatedId(constructEvent(payload, sigHeader, endpointSecret).value) == Some(id)
    ensures CancelBooking(st, id, to).Ok?
    ensures CancelBooking(st, id, to).value.store.bookings[id].status == to
    ensures HandleStripeEvent(st, payload, sigHeader, endpointSecret, constructEvent).Ok?
    ensures HandleStripeEvent(st, payload, sigHeader, endpointSecret, constructEvent).value.store.bookings[id].status == Confirmed
  {
  }
}

=== FILE: stripe_webhook.dfy ===
/** Reconciliation of the payment processor's webhook. Signature checking and
    event parsing (`Webhook.constructEvent`) are a parameter: it yields the
    verified event, or `None` when the signature does not verify. Only a
    `payment_intent.succeeded` event changes anything, and then only the
    status of the booking whose id its metadata carries. */
module StripeWebhook {
  import opened Outcomes
  import opened Longs
  import opened Entities
  import opened Http
  import BookingService
  import PaymentService

  /** A verified event: its type and, for a payment intent, the intent's
      metadata once the data object deserializes (`None` when it does not). */
  datatype Event = Event(eventType: string, intentMetadata: Option<map<string, string>>)

  /** The acknowledgement sent back, with the store after the event. */
  datatype Ack = Ack(store: Store, body: string)

  const PAYMENT_SUCCEEDED: string := "payment_intent.succeeded"
  const ACK_BODY: string := "ok"

  const SignatureFailed: Error := Error(SignatureVerification, "No signatures found matching the expected signature for payload")

  /** `Optional.get()` on a data object that did not deserialize. */
  const NoDataObject: Error := Error(NoSuchElement, "No value present")

  /** The booking id a verified event points at, if it is a succeeded payment
      whose metadata carries a parsable id. */
  function CorrelatedId(e: Event): Option<int> {
    if e.eventType == PAYMENT_SUCCEEDED && e.intentMetadata.Some? && PaymentService.BOOKING_ID_KEY in e.intentMetadata.value
    then ParseLong(e.intentMetadata.value[PaymentService.BOOKING_ID_KEY])
    else None
  }

  /** `handleStripeEvent`. */
  function HandleStripeEvent(
    st: Store, payload: string, sigHeader: string, endpointSecret: string,
    constructEvent: (string, string, string) -> Option<Event>): (r: Result<Ack>)
    ensures constructEvent(payload, sigHeader, endpointSecret).None? ==> r == Err(SignatureFailed)
    ensures r.Ok? ==> r.value.body == ACK_BODY
    ensures r.Ok? ==> r.value.store.catalog == st.catalog && r.value.store.nextId == st.nextId
    ensures Inv(st) && r.Ok? ==> r.value.store.bookings.Keys == st.bookings.Keys
    ensures (constructEvent(payload, sigHeader, endpointSecret).Some?
             && constructEvent(payload, sigHeader, endpointSecret).value.eventType != PAYMENT_SUCCEEDED) ==>
      r == Ok(Ack(st, ACK_BODY))
    ensures (constructEvent(payload, sigHeader, endpointSecret).Some?
             && var e := constructEvent(payload, sigHeader, endpointSecret).value;
             e.eventType == PAYMENT_SUCCEEDED && e.intentMetadata.Some?
             && PaymentService.BOOKING_ID_KEY !in e.intentMetadata.value) ==>
      r == Ok(Ack(st, ACK_BODY))
    ensures (constructEvent(payload, sigHeader, endpointSecret).Some?
             && var e := constructEvent(payload, sigHeader, endpointSecret).value;
             e.eventType == PAYMENT_SUCCEEDED && e.intentMetadata.Some?
             && PaymentService.BOOKING_ID_KEY in e.intentMetadata.value
             && ParseLong(e.intentMetadata.value[PaymentService.BOOKING_ID_KEY]).None?) ==>
      r.Err? && r.error.kind == NumberFormat
    ensures r.Ok? && r.value.store != st ==>
      && constructEvent(payload, sigHeader, endpointSecret).Some?
      && var id := CorrelatedId(constructEvent(payload, sigHeader, endpointSecret).value);
      && id.Some? && id.value in st.bookings
    ensures Inv(st) && constructEvent(payload, sigHeader, endpointSecret).Some? ==>
      var e := constructEvent(payload, sigHeader, endpointSecret).value;
      var id := CorrelatedId(e);
      && (e.eventType == PAYMENT_SUCCEEDED && e.intentMetadata.None? ==> r == Err(NoDataObject))
      && (id.Some? && id.value !in st.bookings ==> r == Ok(Ack(st, ACK_BODY)))
      && (id.Some? && id.value in st.bookings ==>
            r == Ok(Ack(st.(bookings := st.bookings[id.value := st.bookings[id.value].(status := Confirmed)]), ACK_BODY)))
    ensures Inv(st) && r.Ok? ==> Inv(r.value.store)
  {
    match constructEvent(payload, sigHeader, endpointSecret)
    case None => Err(SignatureFailed)
    case Some(event) =>
      if event.eventType != PAYMENT_SUCCEEDED then Ok(Ack(st, ACK_BODY))
      else
        match event.intentMetadata
        case None => Err(NoDataObject)
        case Some(metadata) =>
          if PaymentService.BOOKING_ID_KEY !in metadata then Ok(Ack(st, ACK_BODY))
          else
            var text := metadata[PaymentService.BOOKING_ID_KEY];
            match ParseLong(text)
            case None => Err(NumberFormatError(text))
            case Some(id) =>
              var u :- BookingService.CancelBooking(st, id, Confirmed);
              Ok(Ack(u.store, ACK_BODY))
  }

  /** Redelivery of an event changes nothing more: a second delivery that
      verifies to the same event, even under a freshly signed header, handled
      on the store the first delivery left, acknowledges with that same
      store. */
  lemma WebhookIdempotent(
    st: Store, payload: string, sigHeader: string, payload2: string, sigHeader2: string,
    endpointSecret: string, constructEvent: (string, string, string) -> Option<Event>)
    requires Inv(st)
    requires HandleStripeEvent(st, payload, sigHeader, endpointSecret, constructEvent).Ok?
    requires constructEvent(payload2, sigHeader2, endpointSecret) == constructEvent(payload, sigHeader, endpointSecret)
    ensures
      var once := HandleStripeEvent(st, payload, sigHeader, endpointSecret, constructEvent).value.store;
      HandleStripeEvent(once, payload2, sigHeader2, endpointSecret, constructEvent) == Ok(Ack(once, ACK_BODY))
  {
    var once := HandleStripeEvent(st, payload, sigHeader, endpointSecret, constructEvent).value.store;
    var e := constructEvent(payload, sigHeader, endpointSecret).value;
    var id := CorrelatedId(e);
    if id.Some? && id.value in st.bookings {
      var b := st.bookings[id.value].(status := Confirmed);
      assert once == st.(bookings := st.bookings[id.value := b]);
      assert once.bookings[id.value].(status := Confirmed) == b;
      assert once.bookings[id.value := b] == once.bookings;
    }
  }

  /** A delivery for a booking that is already CONFIRMED is acknowledged with
      the store unchanged. */
  lemma ConfirmedDeliveryIsNoop(
    st: Store, payload: string, sigHeader: string, endpointSecret: string,
    constructEvent: (string, string, string) -> Option<Event>)
    requires Inv(st)
    requires constructEvent(payload, sigHeader, endpointSecret).Some?
    requires
      var id := CorrelatedId(constructEvent(payload, sigHeader, endpointSecret).value);
      id.Some? && id.value in st.bookings && st.bookings[id.value].status == Confirmed
    ensures HandleStripeEvent(st, payload, sigHeader, endpointSecret, constructEvent) == Ok(Ack(st, ACK_BODY))
  {
    var id := CorrelatedId(constructEvent(payload, sigHeader, endpointSecret).value).value;
    assert st.bookings[id].(status := Confirmed) == st.bookings[id];
    assert st.bookings[id := st.bookings[id]] == st.bookings;
  }

  /** The webhook endpoint as HTTP: 200 with "ok", or the status of the escaped
      exception. A bad signature is not caught anywhere and so answers 500; a
      non-numeric booking id is a NumberFormatException and answers 400. */
  function PostWebhook(
    st: Store, payload: string, sigHeader: string, endpointSecret: string,
    constructEvent: (string, string, string) -> Option<Event>): (x: Exchange<string>)
    ensures x.response.status == OK <==> HandleStripeEvent(st, payload, sigHeader, endpointSecret, constructEvent).Ok?
    ensures x.response.status == OK ==> x.response.body == Some(ACK_BODY)
    ensures x.response.status != OK ==> x.store == st
    ensures constructEvent(payload, sigHeader, endpointSecret).None? ==>
      x.response.status == INTERNAL_SERVER_ERROR && x.store == st
    ensures HandleStripeEvent(st, payload, sigHeader, endpointSecret, constructEvent).Err? ==>
      x.response.status == EscapedStatus(HandleStripeEvent(st, payload, sigHeader, endpointSecret, constructEvent).error.kind)
    ensures HandleStripeEvent(st, payload, sigHeader, endpointSecret, constructEvent) == Err(NoDataObject) ==>
      x.response.status == INTERNAL_SERVER_ERROR
    ensures (HandleStripeEvent(st, payload, sigHeader, endpointSecret, constructEvent).Err?
             && HandleStripeEvent(st, payload, sigHeader, endpointSecret, constructEvent).error.kind == NumberFormat) ==>
      x.response.status == BAD_REQUEST
  {
    match HandleStripeEvent(st, payload, sigHeader, endpointSecret, constructEvent)
    case Ok(ack) => Exchange(ack.store, Response(OK, Some(ack.body)))
    case Err(e) => Exchange(st, Response(EscapedStatus(e.kind), None))
  }
}
